=== FILE: README.md ===
# OurGroceries skill: cache reconciliation model

A Dafny model of the decision logic of a Mycroft voice skill that adds items to a
shared OurGroceries shopping list. The skill keeps two local cache files (the
grocery list and the category list), each a snapshot `{list: {items: [...]},
refresh_date}`, and decides from them what to send to the service. The logic
exists twice: in the skill class (`__init__.py`) and in an older stand-alone
script (`talk_to_ourgroceries.py`). The model covers four pieces of it:

- **Category resolution** (`return_category_id`). A spoken category name is
  matched against each category heading in list order. A heading is compared by
  its lower-cased first word, so "Dairy (2)" compares as "dairy". Five rules are
  tried per heading: exact, name+"s", name+"ies", name minus its last character,
  and name minus its last three characters.
- **Add-or-uncross reconciliation** (`add_to_my_list`). The item snapshot is
  scanned for entries whose value contains the requested name. The result is one
  of three outcomes: an add call, an uncross call for a crossed-off entry, or
  nothing. The skill class also rewrites the matching entries of the snapshot
  and saves it.
- **Cache staleness** (`check_file_age`, `refresh_lists`). A cached snapshot is
  reused unless its age, rounded to whole minutes, is more than 10.
- **Bulk uncross and category creation** (`uncross_all_items`, `add_category`).

Remote calls and file writes are not performed. They are returned as a list of
`Effect` values: `AddItem`, `UncrossItem`, `CreateCategory`, `SaveGroceries` and
`Refresh`. A cache file is an `Option<Snapshot<T>>` argument, where None means
there is no file. What the service would return on a fetch is also an argument.
Time is an integer count of Unix seconds. The `now` that `refresh_lists` passes
to `check_file_age` is the timestamp the skill took when it was constructed, not
the time of the call. Each place where the Python code raises
becomes an `Err` value:

- `BlankHeading`: a heading with no word makes `split()[0]` raise IndexError.
- `MissingRefreshDate`: a cache file without `refresh_date` leaves the minute
  count unbound.

Files:

- `basics.dfy`: Option, Result, and `Field` (a JSON key that may be missing).
- `text.dfy`: Python's `lower`, `split()[0]`, `in`, and `s[:-k]`.
- `groceries.dfy`: items, headings, snapshots and effects.
- `categories.dfy`: the five rules and the heading scan.
- `reconcile.dfy`: the item scans and `uncross_all_items`.
- `cache.dfy`: `check_file_age`.
- `skill.dfy`: the skill class's copy.
- `script.dfy`: the script's copy.

The script's `check_file_age`, `refresh_lists` and `uncross_all_items` are the
same code as the skill class's, minus logging. Each is modelled once.

## Behaviour worth knowing

The model follows the code. In these places the code differs from what the
skill's own comments and messages suggest:

- **Staleness threshold.** Python 3's `round` rounds ties to the even number, so
  a snapshot is refreshed only when it is more than 630 seconds old. At 601
  seconds the rounded age is 10 minutes, and 10.5 minutes rounds down to 10.
  See `Cache.StaleIffOlderThan630`.
- **Missing `refresh_date`.** A cache file without this key does not trigger a
  refresh. The code raises instead (`MissingRefreshDate`). A snapshot fetched
  through `refresh_lists(override=...)` is never stamped, so it would raise if it
  were ever saved. See `Skill.OverrideSnapshotIsUnstamped`.
- **The clock is read once.** The skill takes its timestamp in its constructor
  (`__init__.py:32`), and the script takes it at import (`talk_to_ourgroceries.py:12`).
  Every `refresh_lists` of a run passes that same instant. So after the first
  command of a run, no cache file is fetched again: a file the first call kept
  or rewrote is not older than 630 seconds at that instant. The refresh after
  `create_category` therefore also returns the cached category list, so a new
  heading does not show up until the skill is restarted. See
  `Skill.SameClockReusesFiles`.
- **No append after an add.** After an add, only entries that already matched
  are rewritten. Nothing is appended. See the Findings section.
- **The slicing rules cannot underflow into a match.** On a short name, the
  slicing rules give the empty string, and a heading word is never empty.
  See `Categories.ShortNamesOnlyGrow`.
- **Multi-word category names never find their own heading.** A name with a
  space before its last three characters matches no heading, because heading
  words contain no spaces. So, when no heading is blank, `add_category` creates
  such a category again on every call (a blank heading makes it raise instead). See `Skill.SpacedNameIsAlwaysCreated`.

## Model

| member | source | states |
|---|---|---|
| `Text.TakeWord` | __init__.py:190 | the word `split()` takes is the longest separator-free prefix: it is a prefix, holds no separator, and stops at a separator or the end |
| `Text.FirstToken` | __init__.py:190 | `split()[0]` is absent exactly when the string is all separators; otherwise it is a non-empty word without separators |
| `Text.FirstTokenAfterSpaces` | __init__.py:190 | after any run of leading separators, `split()[0]` is the longest separator-free run that follows |
| `Text.TakeWordOf` | __init__.py:190 | a separator-free word followed by nothing or a separator is taken whole |
| `Text.TokenOfWord` | __init__.py:188-190 | a word followed by nothing or by a separator, as in "dairy (2)", is the heading's key |
| `Text.DropLast` | __init__.py:204-208 | for `k > 0`, `s[:-k]` is a prefix of `s`, `k` shorter, or empty when `s` has fewer than `k` characters |
| `Text.LowerIdempotent` | __init__.py:182 | lower-casing the already lower-cased category name a second time changes nothing |
| `Text.LowerKeepsSpaces` | __init__.py:190 | lower-casing neither creates nor removes separators |
| `Text.ContainsAt` | __init__.py:59 | the recursive substring test holds exactly when the name occurs at some offset of the value, as Python's `in` |
| `Text.ContainsItself` | __init__.py:87-91 | a stand-in entry's value, the name itself, contains the name |
| `Categories.FirstRule` | __init__.py:192-210 | the rule chosen for a heading holds, and no rule of higher priority holds; no rule is chosen only when none of the five holds |
| `Categories.Decisive` | __init__.py:187-210 | the scan passes every heading before the returned position and stops at the first hit or blank heading, or at the end |
| `Categories.DecisiveIsFirst` | __init__.py:187-210 | the scan stops at the first heading it does not pass and at no other position |
| `Categories.Resolve` | __init__.py:185-213 | the result is None exactly when every heading is passed; an id only from a hit heading with every earlier heading passed; BlankHeading exactly when a blank heading is reached first |
| `Categories.EarliestHitWins` | __init__.py:187-210 | a hit heading with only passed headings before it is the result, so no later heading is ever chosen |
| `Categories.ShortNamesOnlyGrow` | __init__.py:202-210 | a name of at most one character never matches by dropping one character, and one of at most three never matches by dropping three |
| `Categories.SpacedNameMatchesNoToken` | __init__.py:188-210 | a name with a separator before its last three characters matches no heading word under any rule |
| `Reconcile.LastCrossedAt` | __init__.py:72-80 | the position found is a crossed-off match with an id and no later item is one; -1 exactly when there is no such item |
| `Reconcile.LastCrossed` | __init__.py:72-80 | `existing_item_id` is unset exactly when no matching item is crossed off with an id; otherwise it is the id of the last such item |
| `Reconcile.Place` | __init__.py:58-71 | `food_exists` holds exactly when a matching item has the resolved category id; `move_food_between_categories` exactly when a matching item has another id or no `categoryId` key |
| `Reconcile.UncrossAllItems` | __init__.py:215-228 | one uncross call per crossed-off item that has an id, in list order, and none for any other item |
| `Cache.RoundedMinutes` | __init__.py:126 | the rounded minute count is within half a minute of the age, and a tie gives the even count |
| `Cache.RoundedMinutesUnique` | __init__.py:126 | nearest with ties to even determines the rounded minute count uniquely |
| `Cache.StaleIffOlderThan630` | __init__.py:126-130 | the rounded age exceeds 10 minutes exactly when the age exceeds 630 seconds |
| `Cache.CheckFileAge` | __init__.py:122-142 | no file: fetch, stamp `now` and write; no `refresh_date`: raise; otherwise fetch, stamp and write exactly when older than 630 seconds, else return the file unchanged |
| `Cache.FreshSnapshotIsReused` | __init__.py:138-142 | a snapshot fetched and stamped at `now` is returned as written, with no fetch, by every read within the next 630 seconds |
| `Cache.SameInstantReusesFile` | __init__.py:122-142 | reading the file a check left behind, at the same instant, reuses it with no fetch and no write |
| `Cache.StalenessBoundary` | talk_to_ourgroceries.py:36-56 | ages of 600, 601 and 630 seconds reuse the file; 631 seconds refreshes it |
| `Skill.ResolveCategory` | __init__.py:181-213 | no headings gives None; a None name gives None, or raises exactly when some heading is blank; None exactly when every heading is passed; an id only from the first hit, with every earlier heading passed; raises exactly when a blank heading is reached first |
| `Skill.LoweringTwiceIsHarmless` | __init__.py:53 | lower-casing the category in add_to_my_list before the lookup lower-cases it again gives the same lookup as the name as given |
| `Skill.AddToMyList` | __init__.py:46-97 | fails, with BlankHeading, exactly when category lookup fails; when no match is in the category or some match is outside it, adds the item and saves, with matches replaced by a stand-in, other items, length and stamp unchanged; otherwise leaves the snapshot alone and uncrosses the last crossed-off match, if there is one |
| `Skill.AddAgainIsNoOp` | __init__.py:59-91 | after an add that rewrote at least one entry, the same request on the updated snapshot issues no call and changes nothing |
| `Skill.AddAgainWhenNothingMatched` | __init__.py:81-93 | after an add for a name nothing matched, the snapshot is unchanged and the same request adds the item again |
| `Skill.MilkIsAddedTwice` | __init__.py:81-93 | "milk" on an empty list is sent to the service on the first request and again on the second |
| `Skill.AddToMyListFixed` | __init__.py:84-93 | after an add, some entry matches and every match is the stand-in with the resolved category; when nothing matched, the add and the save are sent and the stand-in is appended; otherwise it behaves as the code does |
| `Skill.AddAgainIsNoOpFixed` | __init__.py:84-93 | with the append, every request that issued an add issues nothing when repeated |
| `Skill.AddCategory` | __init__.py:99-112 | raises BlankHeading exactly when a blank heading is reached first; creates the category and refreshes exactly when every heading is passed; otherwise issues nothing |
| `Skill.AddCategoryTwice` | __init__.py:106-108 | a one-word category just created is found once its heading is in the category list, at any position (within a run the cached list is kept, so only after a restart), and a second add_category then creates nothing |
| `Skill.SpacedNameIsAlwaysCreated` | __init__.py:106-108 | a category name with a separator before its last three characters is created on every call when no heading is blank (a blank heading makes it raise) |
| `Skill.RefreshLists` | __init__.py:158-171 | with an override value passed (even False), both lists are fetched, neither is stamped nor written; otherwise it raises exactly when a file lacks `refresh_date`, and each list, with its fetched and written flags, is exactly what check_file_age gives for its file at `now`: the cached file within 630 seconds, else the fetch stamped `now` |
| `Skill.SameClockReusesFiles` | __init__.py:164-166 | a second refresh at the constructor's instant, reading the files the first one left, fetches and writes nothing and returns the same lists |
| `Skill.OverrideSnapshotIsUnstamped` | __init__.py:165-170 | a snapshot fetched with the override makes check_file_age raise if it is stored as the cache file |
| `Script.ResolveCategory` | talk_to_ourgroceries.py:70-97 | no headings gives None; None exactly when every heading is passed; an id only from the first hit with every earlier heading passed; raises exactly when a blank heading is reached first |
| `Script.AddToMyList` | talk_to_ourgroceries.py:100-124 | never changes the snapshot; adds exactly when no item's value contains the name, resolving the category only then, and raises only BlankHeading; otherwise uncrosses the last crossed-off match, if there is one |
| `Script.AddCategory` | talk_to_ourgroceries.py:127-134 | creates the category and refreshes exactly when lookup gives None; issues nothing when it gives an id; raises BlankHeading exactly when lookup raises |
| `Script.ResolveAgreesWithSkill` | talk_to_ourgroceries.py:70-97 | the script's lookup equals the skill class's on every non-None name |
| `Script.AddCategoryAgreesWithSkill` | talk_to_ourgroceries.py:127-134 | both copies of add_category make the same calls |
| `Script.NewItemAgreesWithSkill` | talk_to_ourgroceries.py:118-121 | for a name nothing matches, both copies send the same add call with the same category id, and the skill class also saves |
| `Script.ExampleTokens` | talk_to_ourgroceries.py:75-77 | the headings "Fruit" and "Veggies" compare as "fruit" and "veggies" |
| `Script.ExampleNames` | talk_to_ourgroceries.py:71 | the names "veggie", "fruits" and "dairy" are unchanged by lower-casing |
| `Script.VeggieRules` | talk_to_ourgroceries.py:78-84 | no rule relates "veggie" to "fruit"; the +"s" rule relates it to "veggies" |
| `Script.VeggieExample` | talk_to_ourgroceries.py:78-84 | "veggie" passes "Fruit" and resolves to "Veggies" |
| `Script.FruitsRules` | talk_to_ourgroceries.py:88-92 | the rule that drops the last character is the one that relates "fruits" to "fruit" |
| `Script.FruitsExample` | talk_to_ourgroceries.py:88-92 | "fruits" resolves to "Fruit" |
| `Script.DairyRules` | talk_to_ourgroceries.py:78-96 | no rule relates "dairy" to "fruit" or to "veggies" |
| `Script.DairyExample` | talk_to_ourgroceries.py:70-97 | "dairy" matches neither "Fruit" nor "Veggies" and resolves to None |
| `Script.DuplicateHeadingExample` | talk_to_ourgroceries.py:75-77 | the duplicate heading "Dairy (2)" compares as "dairy" |

## Left out

- Calls to the OurGroceries client are not modelled: login, `get_my_lists`, `get_list_items`, `get_category_items`, `add_item_to_list`, `toggle_item_crossed_off` and `create_category`. They go to a network library. The model returns them as `Effect` values or takes their results as arguments. The list id they carry is left out.
- File access is not modelled (`write_new_list_to_disk`, `json.load`, `os.path.isfile`). The cache file is an optional snapshot argument, and a write is the `SaveGroceries` effect or the `written` flag.
- `fetch_list_and_categories` is not modelled. Its unknown-type branch returns None, and stamping None would raise. Every call site passes "groceries" or "categories", so that branch is never reached.
- The Mycroft wiring is not modelled: the constructor's login and default-list lookup, `create_item_on_list`, `speak`, logging and `print`. It is plumbing around the logic.
- List-name matching and similar-list detection do not appear in these two files.
- Timestamps are integer seconds, not `datetime` floats. For integer ages, `round(age / 60)` is exact, and `Cache.RoundedMinutes` models it exactly. Fractional seconds are not modelled.
- `Text.Lower` lower-cases ASCII letters only. Python's `str.lower` also maps other Unicode letters, and that is not modelled.
- Missing `value` keys on items or headings, and a missing `id` on a heading, raise KeyError in the code. These records are not modelled: the datatypes make those keys mandatory.
- `crossedOff` is modelled as a boolean. Other truthy or falsy JSON values are not modelled.
- `Script.ResolveCategory` takes a string. A None name raises AttributeError in the script, and that is not modelled.
- `Script.AddToMyList` takes the category as a string. The script lower-cases it before the scan (`talk_to_ourgroceries.py:106`), so a None category raises AttributeError even when an item matches. That is not modelled; no call in the script passes None.
- `Skill.AddCategory` takes a string. It has no caller in the skill class that could pass None.
- `Skill.RefreshLists`: `now` is the timestamp taken when the skill is constructed, not a clock read per call. The model takes it as an argument and does not model the clock.
- `Skill.RefreshLists`: when the grocery file is stale and the category file lacks `refresh_date`, the code fetches and rewrites the grocery file before it raises on the category file. The model returns only `Err(MissingRefreshDate)`, so that earlier write is not recorded.
- Default argument values (`item_category="None"`, `category="uncategorized"`) are not modelled. Every argument is explicit.

## Findings

| source | as written | input that shows it | evidently intended | confidence | as-written member | corrected member |
|---|---|---|---|---|---|---|
| __init__.py:84-93 | after an add, only entries that already contained the name are rewritten; nothing is appended when no entry did | an empty grocery snapshot, item "milk", no category: the first request and a repeat within the cache window both call `add_item_to_list` | lines 88-90 say the local update exists so that the same item is not added twice; a stand-in entry should be appended when nothing matched | medium, not executed | Skill.AddAgainWhenNothingMatched | Skill.AddToMyListFixed |

=== FILE: basics.dfy ===
/** Small failure-compatible wrappers shared by the whole model. */
module Basics {

  /** An optional value, as Python's `None` or a value. */
  datatype Option<+T> = None | Some(value: T)

  /** A key of a JSON object that may be missing: `Absent` is a KeyError on lookup,
      which is different from a key that is present and holds `None`. */
  datatype Field<+T> = Absent | Present(value: T)

  /** The outcome of an operation that can raise. */
  datatype Result<+T, +E> = Ok(value: T) | Err(error: E) {

    predicate IsFailure() {
      Err?
    }

    function PropagateFailure<U>(): Result<U, E>
      requires Err?
    {
      Err(error)
    }

    function Extract(): T
      requires Ok?
    {
      value
    }
  }
}

=== FILE: cache.dfy ===
/** check_file_age: reuse a cached snapshot or fetch a fresh one, decided by the
    snapshot's age in whole minutes. Time is Unix seconds. */
module Cache {
  import opened Basics
  import opened Groceries

  /** A snapshot is reused while its rounded age in minutes is at most this. */
  const StaleMinutes := 10

  /** `round(seconds / 60)` with Python 3's `round`: to the nearest integer, a tie
      going to the even one. */
  function RoundedMinutes(seconds: int): (m: int)
    ensures 60 * m - 30 <= seconds <= 60 * m + 30
    ensures (seconds == 60 * m - 30 || seconds == 60 * m + 30) ==> m % 2 == 0
  {
    var q := seconds / 60;
    var rem := seconds % 60;
    if rem < 30 then q
    else if rem > 30 then q + 1
    else if q % 2 == 0 then q
    else q + 1
  }

  /** Nearest-with-ties-to-even pins the rounded value down: no other integer
      satisfies both of RoundedMinutes' postconditions. */
  lemma RoundedMinutesUnique(seconds: int, m: int)
    requires 60 * m - 30 <= seconds <= 60 * m + 30
    requires (seconds == 60 * m - 30 || seconds == 60 * m + 30) ==> m % 2 == 0
    ensures m == RoundedMinutes(seconds)
  {
  }

  /** The rounded age exceeds ten minutes exactly when the age exceeds 630
      seconds: 10.5 minutes rounds to the even 10. */
  lemma {:induction false} StaleIffOlderThan630(seconds: int)
    ensures RoundedMinutes(seconds) > StaleMinutes <==> seconds > 630
  {
    var m := RoundedMinutes(seconds);
    if seconds > 630 {
      assert m >= 11;
    }
  }

  /** The snapshot `fetched` from the service, stamped with `now`. */
  function Stamped<T>(fetched: seq<T>, now: int): Snapshot<T> {
    Snapshot(fetched, Present(now))
  }

  /** check_file_age. `cached` is the file's content (None when there is no file);
      `fetched` is what the service would return if asked. */
  function CheckFileAge<T>(cached: Option<Snapshot<T>>, now: int, fetched: seq<T>): (r: Result<CacheRead<T>, Error>)
    ensures cached.None? ==> r == Ok(CacheRead(Snapshot(fetched, Present(now)), true, true))
    ensures cached.Some? && cached.value.refreshDate.Absent? ==> r == Err(MissingRefreshDate)
    ensures cached.Some? && cached.value.refreshDate.Present? ==>
      && r.Ok?
      && r.value.written == r.value.fetched
      && (r.value.fetched <==> now - cached.value.refreshDate.value > 630)
      && (r.value.fetched ==> r.value.snapshot == Snapshot(fetched, Present(now)))
      && (!r.value.fetched ==> r.value.snapshot == cached.value)
  {
    match cached
    case None => Ok(CacheRead(Stamped(fetched, now), true, true))
    case Some(file) =>
      match file.refreshDate
      case Absent => Err(MissingRefreshDate)
      case Present(last) =>
        StaleIffOlderThan630(now - last);
        if RoundedMinutes(now - last) > StaleMinutes then Ok(CacheRead(Stamped(fetched, now), true, true))
        else Ok(CacheRead(file, false, false))
  }

  /** A snapshot fetched and stamped at `now` is handed back unchanged, without a
      fetch, by every later read within 630 seconds: what was written is what is read. */
  lemma FreshSnapshotIsReused<T>(now: int, later: int, fetched: seq<T>, refetched: seq<T>)
    requires now <= later <= now + 630
    ensures var first := CheckFileAge(None, now, fetched);
            first.Ok? && CheckFileAge(Some(first.value.snapshot), later, refetched) == Ok(CacheRead(first.value.snapshot, false, false))
  {
  }

  /** Reading the cache file again with the same `now` reuses it: whether the
      first read kept the file or fetched and rewrote it, the file it leaves
      behind is not older than 630 seconds at that instant. */
  lemma SameInstantReusesFile<T>(cached: Option<Snapshot<T>>, now: int, fetched: seq<T>, refetched: seq<T>)
    requires CheckFileAge(cached, now, fetched).Ok?
    ensures var first := CheckFileAge(cached, now, fetched).value;
            CheckFileAge(Some(first.snapshot), now, refetched) == Ok(CacheRead(first.snapshot, false, false))
  {
    var first := CheckFileAge(cached, now, fetched).value;
    if !first.fetched {
      assert cached == Some(first.snapshot);
    }
  }

  /** Exactly ten minutes, and even 10 minutes 30 seconds, reuse the file; one second more refreshes it. */
  lemma StalenessBoundary<T>(items: seq<T>, t: int, fetched: seq<T>)
    ensures CheckFileAge(Some(Snapshot(items, Present(t))), t + 600, fetched).value.fetched == false
    ensures CheckFileAge(Some(Snapshot(items, Present(t))), t + 601, fetched).value.fetched == false
    ensures CheckFileAge(Some(Snapshot(items, Present(t))), t + 630, fetched).value.fetched == false
    ensures CheckFileAge(Some(Snapshot(items, Present(t))), t + 631, fetched).value.fetched == true
  {
  }
}

=== FILE: categories.dfy ===
/** The fuzzy plural matching of a searched category name against the category
    headings, shared by both copies of return_category_id. */
module Categories {
  import opened Basics
  import opened Text
  import opened Groceries

  /** The five comparisons, in the order they are tried against one heading. */
  datatype Rule = Exact | PlusS | PlusIes | DropOne | DropThree

  function Rank(rule: Rule): nat {
    match rule
    case Exact => 0
    case PlusS => 1
    case PlusIes => 2
    case DropOne => 3
    case DropThree => 4
  }

  /** Whether `rule` relates the (lower-cased) searched name to a heading token. */
  predicate Holds(rule: Rule, name: string, token: string) {
    match rule
    case Exact => name == token
    case PlusS => name + "s" == token
    case PlusIes => name + "ies" == token
    case DropOne => DropLast(name, 1) == token
    case DropThree => DropLast(name, 3) == token
  }

  /** The rule that fires for one heading: the first in priority order that holds. */
  function FirstRule(name: string, token: string): (r: Option<Rule>)
    ensures r.Some? ==> Holds(r.value, name, token)
    ensures r.Some? ==> forall q :: Rank(q) < Rank(r.value) ==> !Holds(q, name, token)
    ensures r.None? ==> forall q :: !Holds(q, name, token)
  {
    if name == token then Some(Exact)
    else if name + "s" == token then Some(PlusS)
    else if name + "ies" == token then Some(PlusIes)
    else if DropLast(name, 1) == token then Some(DropOne)
    else if DropLast(name, 3) == token then Some(DropThree)
    else None
  }

  /** The comparable key of a heading: its lower-cased first word, None for a blank heading. */
  function HeadingToken(h: Heading): Option<string> {
    FirstToken(Lower(h.value))
  }

  /** The heading has no word, so computing its key raises. */
  predicate Blank(h: Heading) {
    HeadingToken(h).None?
  }

  /** The searched key (None when no name is searched) selects this heading. */
  predicate Hits(key: Option<string>, h: Heading) {
    key.Some? && HeadingToken(h).Some? && FirstRule(key.value, HeadingToken(h).value).Some?
  }

  /** The scan looks at this heading and moves on to the next. */
  predicate Passes(key: Option<string>, h: Heading) {
    !Blank(h) && !Hits(key, h)
  }

  /** The position where the scan over the headings stops: the first heading it
      does not pass (a hit or a blank), or the end of the list. */
  function Decisive(key: Option<string>, hs: seq<Heading>): (j: nat)
    ensures j <= |hs|
    ensures forall i :: 0 <= i < j ==> Passes(key, hs[i])
    ensures j < |hs| ==> !Passes(key, hs[j])
  {
    if |hs| == 0 || !Passes(key, hs[0]) then 0 else 1 + Decisive(key, hs[1..])
  }

  /** The scan stops at the first heading it does not pass, and nowhere else. */
  lemma DecisiveIsFirst(key: Option<string>, hs: seq<Heading>)
    ensures forall j :: 0 <= j < |hs| && !Passes(key, hs[j]) && (forall i :: 0 <= i < j ==> Passes(key, hs[i])) ==>
      Decisive(key, hs) == j
  {
    var d := Decisive(key, hs);
    forall j | 0 <= j < |hs| && !Passes(key, hs[j]) && (forall i :: 0 <= i < j ==> Passes(key, hs[i]))
      ensures d == j
    {
      assert d <= j;
    }
  }

  /** The scan of return_category_id for a searched key: the id of the first
      heading that a rule selects, None when every heading is passed over, and
      BlankHeading when the scan reaches a heading without a word first. */
  function Resolve(key: Option<string>, hs: seq<Heading>): (r: Result<Option<string>, Error>)
    ensures r == Ok(None) <==> forall i :: 0 <= i < |hs| ==> Passes(key, hs[i])
    ensures r.Ok? && r.value.Some? ==>
      exists j :: 0 <= j < |hs| && Hits(key, hs[j]) && hs[j].id == r.value.value && forall i :: 0 <= i < j ==> Passes(key, hs[i])
    ensures r.Err? <==> exists j :: 0 <= j < |hs| && Blank(hs[j]) && forall i :: 0 <= i < j ==> Passes(key, hs[i])
    ensures r.Err? ==> r.error == BlankHeading
  {
    DecisiveIsFirst(key, hs);
    var j := Decisive(key, hs);
    if j == |hs| then Ok(None)
    else if Blank(hs[j]) then Err(BlankHeading)
    else Ok(Some(hs[j].id))
  }

  /** Once a heading is hit, no later heading is ever chosen. */
  lemma EarliestHitWins(key: Option<string>, hs: seq<Heading>, j: int)
    requires 0 <= j < |hs| && Hits(key, hs[j])
    requires forall i :: 0 <= i < j ==> Passes(key, hs[i])
    ensures Resolve(key, hs) == Ok(Some(hs[j].id))
  {
    var d := Decisive(key, hs);
    assert !Passes(key, hs[j]);
    assert d <= j;
    assert !Blank(hs[j]);
  }

  /** A short name cannot match through the slicing rules: the slice underflows to
      the empty string, and a heading token is never empty. */
  lemma ShortNamesOnlyGrow(name: string, token: string)
    requires |token| > 0
    ensures |name| <= 1 ==> !Holds(DropOne, name, token)
    ensures |name| <= 3 ==> !Holds(DropThree, name, token)
  {
  }

  /** A name holding a separator before its last three characters matches no
      heading token under any rule: every rule keeps that separator, and tokens
      have none. */
  lemma SpacedNameMatchesNoToken(name: string, p: int, token: string)
    requires 0 <= p < |name| - 3 && IsSpace(name[p])
    requires forall i :: 0 <= i < |token| ==> !IsSpace(token[i])
    ensures FirstRule(name, token).None?
  {
    forall q: Rule
      ensures !Holds(q, name, token)
    {
      var candidate := match q
        case Exact => name
        case PlusS => name + "s"
        case PlusIes => name + "ies"
        case DropOne => DropLast(name, 1)
        case DropThree => DropLast(name, 3);
      assert p < |candidate| && candidate[p] == name[p];
      assert Holds(q, name, token) ==> candidate == token;
    }
  }
}

=== FILE: groceries.dfy ===
/** The records the skill reads from the list service and keeps in its cache
    files: list items, category headings, the cached snapshot around them, and
    the calls and writes an operation decides to make. */
module Groceries {
  import opened Basics
  import opened Text

  /** One entry of `list.items` of a shopping list. Only `value` is always
      there; `id`, `categoryId` and `crossedOff` may be missing. `categoryId`
      may also be present and hold `None`: that is what the skill writes for an
      uncategorised stand-in entry. */
  datatype Item = Item(id: Field<string>, value: string, categoryId: Field<Option<string>>, crossedOff: Field<bool>)

  /** One entry of `list.items` of the category list: a heading such as "Dairy" or "Dairy (2)". */
  datatype Heading = Heading(id: string, value: string)

  /** The content of a cache file: the items and the `refresh_date` stamp (Unix seconds). */
  datatype Snapshot<T> = Snapshot(items: seq<T>, refreshDate: Field<int>)

  /** The places where the skill raises instead of returning. */
  datatype Error =
    | BlankHeading        // `value.split()[0]` of a heading with no word: IndexError
    | MissingRefreshDate  // cache file without `refresh_date`: the minute count is never bound

  /** A call to the list service or a write of the grocery cache file. */
  datatype Effect =
    | AddItem(name: string, categoryId: Option<string>)  // add_item_to_list
    | UncrossItem(itemId: string)                        // toggle_item_crossed_off(..., cross_off=False)
    | CreateCategory(name: string)                       // create_category
    | SaveGroceries                                      // write the grocery snapshot to its cache file
    | Refresh                                            // refresh_lists() with no override

  /** The effects start with an add call. */
  predicate AddsItem(effects: seq<Effect>) {
    |effects| > 0 && effects[0].AddItem?
  }

  /** What add_to_my_list did: the calls it made and the grocery snapshot it leaves behind. */
  datatype Reconciled = Reconciled(effects: seq<Effect>, groceries: Snapshot<Item>)

  /** What check_file_age returns, and whether it fetched from the service and rewrote the file. */
  datatype CacheRead<T> = CacheRead(snapshot: Snapshot<T>, fetched: bool, written: bool)

  /** What refresh_lists returns. */
  datatype Lists = Lists(groceries: CacheRead<Item>, categories: CacheRead<Heading>)

  /** The skill's notion of "this item is already on the list": the requested name
      is a substring of the item's value. */
  predicate Matches(name: string, it: Item) {
    Contains(it.value, name)
  }

  /** The item carries the given category id (a missing key never does). */
  predicate InCategory(it: Item, cid: Option<string>) {
    it.categoryId == Present(cid)
  }

  /** The item is crossed off and has an id to toggle with; an item without an id
      raises KeyError inside the skill's `try` and is passed over. */
  predicate Uncrossable(it: Item) {
    it.crossedOff == Present(true) && it.id.Present?
  }

  /** The entry written in place of a matching item once an add has been sent:
      no id, no crossed-off flag, just the name and the category. */
  function StandIn(name: string, cid: Option<string>): Item {
    Item(Absent, name, Present(cid), Absent)
  }
}

=== FILE: reconcile.dfy ===
/** The scans over a grocery snapshot that both copies of add_to_my_list and
    uncross_all_items perform. */
module Reconcile {
  import opened Basics
  import opened Groceries

  /** Some item's value contains the requested name. */
  predicate AnyMatch(items: seq<Item>, name: string) {
    exists i :: 0 <= i < |items| && Matches(name, items[i])
  }

  /** Item `i` is a crossed-off match with an id, and no later item is one. */
  ghost predicate IsLastCrossed(items: seq<Item>, name: string, i: int) {
    && 0 <= i < |items|
    && Matches(name, items[i]) && Uncrossable(items[i])
    && forall j :: i < j < |items| ==> !(Matches(name, items[j]) && Uncrossable(items[j]))
  }

  /** Position of the last crossed-off match with an id, -1 when there is none. */
  function LastCrossedAt(items: seq<Item>, name: string): (i: int)
    ensures -1 <= i < |items|
    ensures i == -1 ==> forall j :: 0 <= j < |items| && Matches(name, items[j]) ==> !Uncrossable(items[j])
    ensures i != -1 ==> IsLastCrossed(items, name, i)
  {
    if |items| == 0 then -1
    else if Matches(name, items[|items| - 1]) && Uncrossable(items[|items| - 1]) then |items| - 1
    else LastCrossedAt(items[..|items| - 1], name)
  }

  /** The id the add_to_my_list scan remembers as `existing_item_id`: the loop
      overwrites it at every crossed-off match, so it is the last one's. */
  function LastCrossed(items: seq<Item>, name: string): (r: Option<string>)
    ensures r.None? <==> forall i :: 0 <= i < |items| && Matches(name, items[i]) ==> !Uncrossable(items[i])
    ensures r.Some? ==> exists i :: IsLastCrossed(items, name, i) && items[i].id == Present(r.value)
  {
    var i := LastCrossedAt(items, name);
    if i == -1 then None else Some(items[i].id.value)
  }

  /** The two flags of the skill's scan: `food_exists` and `move_food_between_categories`. */
  datatype Placement = Placement(inCategory: bool, misplaced: bool)

  /** Folds the matching items left to right as the skill's loop does: a match whose
      `categoryId` equals the resolved id sets `inCategory`; a match with another
      id, or with no `categoryId` key, sets `misplaced`. */
  function Place(items: seq<Item>, name: string, cid: Option<string>): (p: Placement)
    ensures p.inCategory <==> exists i :: 0 <= i < |items| && Matches(name, items[i]) && InCategory(items[i], cid)
    ensures p.misplaced <==> exists i :: 0 <= i < |items| && Matches(name, items[i]) && !InCategory(items[i], cid)
  {
    if |items| == 0 then Placement(false, false)
    else
      var p := Place(items[..|items| - 1], name, cid);
      var last := items[|items| - 1];
      if !Matches(name, last) then p
      else if InCategory(last, cid) then p.(inCategory := true)
      else p.(misplaced := true)
  }

  /** uncross_all_items: one uncross call per crossed-off item that has an id, in
      list order, and none for any other item. `picked` are the positions toggled. */
  method UncrossAllItems(items: seq<Item>) returns (calls: seq<Effect>, picked: seq<nat>)
    ensures |picked| == |calls|
    ensures forall k :: 0 <= k < |picked| ==>
      picked[k] < |items| && Uncrossable(items[picked[k]]) && calls[k] == UncrossItem(items[picked[k]].id.value)
    ensures forall k, l :: 0 <= k < l < |picked| ==> picked[k] < picked[l]
    ensures forall i :: 0 <= i < |items| && Uncrossable(items[i]) ==> i in picked
  {
    calls, picked := [], [];
    var n := 0;
    while n < |items|
      invariant 0 <= n <= |items|
      invariant |picked| == |calls|
      invariant forall k :: 0 <= k < |picked| ==>
        picked[k] < n && Uncrossable(items[picked[k]]) && calls[k] == UncrossItem(items[picked[k]].id.value)
      invariant forall k, l :: 0 <= k < l < |picked| ==> picked[k] < picked[l]
      invariant forall i :: 0 <= i < n && Uncrossable(items[i]) ==> i in picked
    {
      if Uncrossable(items[n]) {
        calls := calls + [UncrossItem(items[n].id.value)];
        picked := picked + [n];
      }
      n := n + 1;
    }
  }
}

=== FILE: script.dfy ===
/** The older stand-alone copy in `talk_to_ourgroceries.py`: the search name is
    always a string, add_to_my_list only asks whether some item matches, and the
    snapshot is never rewritten. check_file_age, refresh_lists and
    uncross_all_items there are the same code as in the skill class and are
    modelled once, by Cache.CheckFileAge, Skill.RefreshLists and
    Reconcile.UncrossAllItems. */
module Script {
  import opened Basics
  import opened Text
  import opened Groceries
  import opened Categories
  import opened Reconcile
  import Skill

  /** return_category_id: the id of the first heading, in list order, whose
      lower-cased first word one of the five rules relates to the lower-cased name. */
  function ResolveCategory(name: string, headings: seq<Heading>): (r: Result<Option<string>, Error>)
    ensures headings == [] ==> r == Ok(None)
    ensures r == Ok(None) <==> forall i :: 0 <= i < |headings| ==> Passes(Some(Lower(name)), headings[i])
    ensures r.Ok? && r.value.Some? ==>
      exists j :: 0 <= j < |headings| && Hits(Some(Lower(name)), headings[j]) && headings[j].id == r.value.value &&
        forall i :: 0 <= i < j ==> Passes(Some(Lower(name)), headings[i])
    ensures r.Err? <==>
      exists j :: 0 <= j < |headings| && Blank(headings[j]) && forall i :: 0 <= i < j ==> Passes(Some(Lower(name)), headings[i])
  {
    Resolve(Some(Lower(name)), headings)
  }

  /** add_to_my_list: an add call exactly when no item's value contains the name
      (the category is looked up only then); otherwise an uncross call for the
      last crossed-off match, if there is one. The snapshot is returned as given. */
  function AddToMyList(groceries: Snapshot<Item>, itemName: string, categories: Snapshot<Heading>, category: string): (r: Result<Reconciled, Error>)
    ensures r.Ok? ==> r.value.groceries == groceries
    ensures r.Ok? ==> (AddsItem(r.value.effects) <==> !AnyMatch(groceries.items, itemName))
    ensures !AnyMatch(groceries.items, itemName) ==>
      && (r.Err? <==> ResolveCategory(Lower(category), categories.items).Err?)
      && (r.Ok? ==> r.value.effects == [AddItem(itemName, ResolveCategory(Lower(category), categories.items).value)])
    ensures AnyMatch(groceries.items, itemName) ==>
      && r.Ok?
      && (r.value.effects == [] <==>
            forall i :: 0 <= i < |groceries.items| && Matches(itemName, groceries.items[i]) ==> !Uncrossable(groceries.items[i]))
      && (r.value.effects != [] ==>
            exists i :: IsLastCrossed(groceries.items, itemName, i) && r.value.effects == [UncrossItem(groceries.items[i].id.value)])
    ensures r.Err? ==> r.error == BlankHeading
  {
    if !AnyMatch(groceries.items, itemName) then
      var cid :- ResolveCategory(Lower(category), categories.items);
      Ok(Reconciled([AddItem(itemName, cid)], groceries))
    else
      match LastCrossed(groceries.items, itemName)
      case Some(id) => Ok(Reconciled([UncrossItem(id)], groceries))
      case None => Ok(Reconciled([], groceries))
  }

  /** add_category: creates the category, then refreshes, exactly when the name
      resolves to no heading. */
  function AddCategory(name: string, categories: Snapshot<Heading>): (r: Result<seq<Effect>, Error>)
    ensures r.Err? <==> ResolveCategory(name, categories.items).Err?
    ensures r.Err? ==> r.error == BlankHeading
    ensures r.Ok? ==> (r.value == [CreateCategory(name), Refresh] <==> ResolveCategory(name, categories.items) == Ok(None))
    ensures r.Ok? ==> (r.value == [] <==> ResolveCategory(name, categories.items).value.Some?)
  {
    match ResolveCategory(name, categories.items)
    case Err(e) => Err(e)
    case Ok(None) => Ok([CreateCategory(name), Refresh])
    case Ok(Some(_)) => Ok([])
  }

  /** The two copies of return_category_id agree on every search name the script accepts. */
  lemma ResolveAgreesWithSkill(name: string, headings: seq<Heading>)
    ensures ResolveCategory(name, headings) == Skill.ResolveCategory(Some(name), headings)
  {
  }

  /** The two copies of add_category make the same calls. */
  lemma AddCategoryAgreesWithSkill(name: string, categories: Snapshot<Heading>)
    ensures AddCategory(name, categories) == Skill.AddCategory(name, categories)
  {
  }

  /** For an item no entry matches, both copies send the same add call with the
      same category id; only the skill class also saves its snapshot. */
  lemma NewItemAgreesWithSkill(groceries: Snapshot<Item>, itemName: string, categories: Snapshot<Heading>, category: string)
    requires !AnyMatch(groceries.items, itemName)
    ensures var script := AddToMyList(groceries, itemName, categories, category);
            var skill := Skill.AddToMyList(groceries, itemName, categories, Some(category));
            && (script.Ok? <==> skill.Ok?)
            && (script.Ok? ==> skill.value.effects == script.value.effects + [SaveGroceries])
  {
    var key := Skill.Lowered(Some(category));
    assert Skill.ResolveCategory(key, categories.items) == ResolveCategory(Lower(category), categories.items);
    var skill := Skill.AddToMyList(groceries, itemName, categories, Some(category));
    if skill.Ok? {
      assert Skill.NeedsAdd(groceries.items, itemName, Skill.ResolveCategory(key, categories.items).value);
    }
  }

  /** The first words of the headings "Fruit" and "Veggies". */
  lemma ExampleTokens()
    ensures HeadingToken(Heading("1", "Fruit")) == Some("fruit")
    ensures HeadingToken(Heading("2", "Veggies")) == Some("veggies")
  {
    assert Lower("Fruit") == "fruit" + [];
    assert Lower("Veggies") == "veggies" + [];
    TokenOfWord("fruit", []);
    TokenOfWord("veggies", []);
  }

  /** The example names are already lower case. */
  lemma ExampleNames()
    ensures Lower("veggie") == "veggie"
    ensures Lower("fruits") == "fruits"
    ensures Lower("dairy") == "dairy"
  {
  }

  /** Against "fruit" no rule relates "veggie"; against "veggies" the +"s" rule does. */
  lemma VeggieRules()
    ensures FirstRule("veggie", "fruit").None?
    ensures FirstRule("veggie", "veggies") == Some(PlusS)
  {
    assert DropLast("veggie", 1) == "veggi";
    assert "veggi"[0] != "fruit"[0];
    assert "veggie" + "s" == "veggies";
  }

  /** "veggie" skips "Fruit" and reaches "Veggies" by the +"s" rule. */
  lemma VeggieExample()
    ensures ResolveCategory("veggie", [Heading("1", "Fruit"), Heading("2", "Veggies")]) == Ok(Some("2"))
  {
    var hs := [Heading("1", "Fruit"), Heading("2", "Veggies")];
    ExampleTokens();
    ExampleNames();
    VeggieRules();
    assert Passes(Some("veggie"), hs[0]);
    assert Hits(Some("veggie"), hs[1]);
    EarliestHitWins(Some("veggie"), hs, 1);
  }

  /** Against "fruit" the rule that drops the last letter relates "fruits". */
  lemma FruitsRules()
    ensures FirstRule("fruits", "fruit") == Some(DropOne)
  {
    assert DropLast("fruits", 1) == "fruit";
  }

  /** "fruits" reaches "Fruit" by dropping its last letter. */
  lemma FruitsExample()
    ensures ResolveCategory("fruits", [Heading("1", "Fruit"), Heading("2", "Veggies")]) == Ok(Some("1"))
  {
    var hs := [Heading("1", "Fruit"), Heading("2", "Veggies")];
    ExampleTokens();
    ExampleNames();
    FruitsRules();
    assert Hits(Some("fruits"), hs[0]);
    EarliestHitWins(Some("fruits"), hs, 0);
  }

  /** No rule relates "dairy" to "fruit" or to "veggies". */
  lemma DairyRules()
    ensures FirstRule("dairy", "fruit").None?
    ensures FirstRule("dairy", "veggies").None?
  {
    assert "dairy"[0] != "fruit"[0];
    assert DropLast("dairy", 1) == "dair";
  }

  /** "dairy" reaches neither heading. */
  lemma DairyExample()
    ensures ResolveCategory("dairy", [Heading("1", "Fruit"), Heading("2", "Veggies")]) == Ok(None)
  {
    var hs := [Heading("1", "Fruit"), Heading("2", "Veggies")];
    ExampleTokens();
    ExampleNames();
    DairyRules();
    assert Passes(Some("dairy"), hs[0]) && Passes(Some("dairy"), hs[1]);
    assert forall i :: 0 <= i < |hs| ==> Passes(Some("dairy"), hs[i]);
  }

  /** A heading that repeats a name carries a " (2)" suffix; its first word is still the name. */
  lemma DuplicateHeadingExample()
    ensures HeadingToken(Heading("7", "Dairy (2)")) == Some("dairy")
  {
    assert Lower("Dairy (2)") == "dairy" + " (2)";
    TokenOfWord("dairy", " (2)");
  }
}

=== FILE: skill.dfy ===
/** The skill class of `__init__.py`: category lookup with a None-tolerant
    search name, add-or-uncross reconciliation that rewrites the grocery
    snapshot in place, add_category and refresh_lists. */
module Skill {
  import opened Basics
  import opened Text
  import opened Groceries
  import opened Categories
  import opened Reconcile
  import opened Cache

  /** `x.lower()` where `x` may be None; None stays None. */
  function Lowered(name: Option<string>): Option<string> {
    if name.Some? then Some(Lower(name.value)) else None
  }

  /** return_category_id. A None search name never resolves: the loop only
      computes each heading's key and leaves the result at None. */
  function ResolveCategory(name: Option<string>, headings: seq<Heading>): (r: Result<Option<string>, Error>)
    ensures headings == [] ==> r == Ok(None)
    ensures name.None? ==> r == Ok(None) || r == Err(BlankHeading)
    ensures name.None? ==> (r.Err? <==> exists j :: 0 <= j < |headings| && Blank(headings[j]))
    ensures r == Ok(None) <==> forall i :: 0 <= i < |headings| ==> Passes(Lowered(name), headings[i])
    ensures r.Ok? && r.value.Some? ==>
      exists j :: 0 <= j < |headings| && Hits(Lowered(name), headings[j]) && headings[j].id == r.value.value &&
        forall i :: 0 <= i < j ==> Passes(Lowered(name), headings[i])
    ensures r.Err? <==>
      exists j :: 0 <= j < |headings| && Blank(headings[j]) && forall i :: 0 <= i < j ==> Passes(Lowered(name), headings[i])
  {
    Resolve(Lowered(name), headings)
  }

  /** The lookup add_to_my_list makes: it lower-cases the category, and
      return_category_id lower-cases it again. */
  function CategoryFor(itemCategory: Option<string>, headings: seq<Heading>): Result<Option<string>, Error> {
    ResolveCategory(Lowered(itemCategory), headings)
  }

  /** The second lower-casing changes nothing, so add_to_my_list looks the
      category up by the name as given. */
  lemma LoweringTwiceIsHarmless(name: Option<string>, headings: seq<Heading>)
    ensures CategoryFor(name, headings) == ResolveCategory(name, headings)
  {
    if name.Some? {
      LowerIdempotent(name.value);
    }
  }

  /** The add condition of add_to_my_list: no matching item sits in the resolved
      category, or some matching item sits elsewhere or has no category key. */
  ghost predicate NeedsAdd(items: seq<Item>, name: string, cid: Option<string>) {
    || !(exists i :: 0 <= i < |items| && Matches(name, items[i]) && InCategory(items[i], cid))
    || (exists i :: 0 <= i < |items| && Matches(name, items[i]) && !InCategory(items[i], cid))
  }

  /** Every matching item replaced by the stand-in entry; the rest kept. */
  function Rewrite(items: seq<Item>, name: string, cid: Option<string>): seq<Item> {
    seq(|items|, i requires 0 <= i < |items| => if Matches(name, items[i]) then StandIn(name, cid) else items[i])
  }

  /** add_to_my_list. Adds the item and rewrites every match in the snapshot when
      NeedsAdd holds; otherwise uncrosses the last crossed-off match, if any. */
  function AddToMyList(groceries: Snapshot<Item>, itemName: string, categories: Snapshot<Heading>, itemCategory: Option<string>): (r: Result<Reconciled, Error>)
    ensures r.Err? <==> CategoryFor(itemCategory, categories.items).Err?
    ensures r.Ok? ==>
      var cid := CategoryFor(itemCategory, categories.items).value;
      var items := groceries.items;
      var after := r.value.groceries;
      && (NeedsAdd(items, itemName, cid) ==>
            && r.value.effects == [AddItem(itemName, cid), SaveGroceries]
            && after.refreshDate == groceries.refreshDate
            && |after.items| == |items|
            && forall i :: 0 <= i < |items| ==>
                 after.items[i] == if Matches(itemName, items[i]) then StandIn(itemName, cid) else items[i])
      && (!NeedsAdd(items, itemName, cid) ==>
            && after == groceries
            && (r.value.effects == [] <==> forall i :: 0 <= i < |items| && Matches(itemName, items[i]) ==> !Uncrossable(items[i]))
            && (r.value.effects != [] ==>
                  exists i :: IsLastCrossed(items, itemName, i) && r.value.effects == [UncrossItem(items[i].id.value)]))
    ensures r.Err? ==> r.error == BlankHeading
  {
    var cid :- CategoryFor(itemCategory, categories.items);
    var placement := Place(groceries.items, itemName, cid);
    if !placement.inCategory || placement.misplaced then
      Ok(Reconciled([AddItem(itemName, cid), SaveGroceries], groceries.(items := Rewrite(groceries.items, itemName, cid))))
    else
      match LastCrossed(groceries.items, itemName)
      case Some(id) => Ok(Reconciled([UncrossItem(id)], groceries))
      case None => Ok(Reconciled([], groceries))
  }

  /** Repeating a request whose add rewrote at least one entry changes nothing:
      every match now carries the category and no crossed-off flag. */
  lemma AddAgainIsNoOp(groceries: Snapshot<Item>, itemName: string, categories: Snapshot<Heading>, itemCategory: Option<string>)
    requires AnyMatch(groceries.items, itemName)
    requires AddToMyList(groceries, itemName, categories, itemCategory).Ok?
    requires AddsItem(AddToMyList(groceries, itemName, categories, itemCategory).value.effects)
    ensures var after := AddToMyList(groceries, itemName, categories, itemCategory).value.groceries;
            AddToMyList(after, itemName, categories, itemCategory) == Ok(Reconciled([], after))
  {
    var cid := CategoryFor(itemCategory, categories.items).value;
    var after := AddToMyList(groceries, itemName, categories, itemCategory).value.groceries;
    var k :| 0 <= k < |groceries.items| && Matches(itemName, groceries.items[k]);
    assert Matches(itemName, after.items[k]) && InCategory(after.items[k], cid);
    assert !NeedsAdd(after.items, itemName, cid);
  }

  /** As written, a request for an item that matched nothing leaves the snapshot
      as it was, so the same request within the cache window adds it again. */
  lemma AddAgainWhenNothingMatched(groceries: Snapshot<Item>, itemName: string, categories: Snapshot<Heading>, itemCategory: Option<string>)
    requires !AnyMatch(groceries.items, itemName)
    requires AddToMyList(groceries, itemName, categories, itemCategory).Ok?
    ensures var first := AddToMyList(groceries, itemName, categories, itemCategory).value;
            && AddsItem(first.effects)
            && first.groceries == groceries
            && AddToMyList(first.groceries, itemName, categories, itemCategory) == Ok(first)
  {
    var cid := CategoryFor(itemCategory, categories.items).value;
    assert NeedsAdd(groceries.items, itemName, cid);
    var first := AddToMyList(groceries, itemName, categories, itemCategory).value;
    assert first.groceries.items == groceries.items;
  }

  /** The concrete case: "milk" on an empty list is sent to the service twice. */
  lemma MilkIsAddedTwice()
    ensures var empty := Snapshot([], Present(0));
            && AddToMyList(empty, "milk", Snapshot([], Present(0)), None) == Ok(Reconciled([AddItem("milk", None), SaveGroceries], empty))
            && AddToMyList(AddToMyList(empty, "milk", Snapshot([], Present(0)), None).value.groceries, "milk", Snapshot([], Present(0)), None)
               == Ok(Reconciled([AddItem("milk", None), SaveGroceries], empty))
  {
    var empty: Snapshot<Item> := Snapshot([], Present(0));
    assert Rewrite(empty.items, "milk", None) == [];
  }

  /** add_to_my_list as evidently intended: when no entry matched, the stand-in is
      appended, so the snapshot records the item that was just added. */
  function AddToMyListFixed(groceries: Snapshot<Item>, itemName: string, categories: Snapshot<Heading>, itemCategory: Option<string>): (r: Result<Reconciled, Error>)
    ensures r.Err? <==> CategoryFor(itemCategory, categories.items).Err?
    ensures r.Err? ==> r.error == BlankHeading
    ensures r.Ok? ==>
      var cid := CategoryFor(itemCategory, categories.items).value;
      var after := r.value.groceries;
      && (!AnyMatch(groceries.items, itemName) ==>
            r.value == Reconciled([AddItem(itemName, cid), SaveGroceries], groceries.(items := groceries.items + [StandIn(itemName, cid)])))
      && (AnyMatch(groceries.items, itemName) ==> r == AddToMyList(groceries, itemName, categories, itemCategory))
      && (AddsItem(r.value.effects) ==>
            && AnyMatch(after.items, itemName)
            && after.refreshDate == groceries.refreshDate
            && forall i :: 0 <= i < |after.items| && Matches(itemName, after.items[i]) ==> after.items[i] == StandIn(itemName, cid))
  {
    var r :- AddToMyList(groceries, itemName, categories, itemCategory);
    if AnyMatch(groceries.items, itemName) then Ok(r)
    else
      var cid := CategoryFor(itemCategory, categories.items).value;
      ContainsItself(itemName);
      assert (groceries.items + [StandIn(itemName, cid)])[|groceries.items|] == StandIn(itemName, cid);
      Ok(r.(groceries := groceries.(items := groceries.items + [StandIn(itemName, cid)])))
  }

  /** With the fix, every request that was sent is not sent again. */
  lemma AddAgainIsNoOpFixed(groceries: Snapshot<Item>, itemName: string, categories: Snapshot<Heading>, itemCategory: Option<string>)
    requires AddToMyListFixed(groceries, itemName, categories, itemCategory).Ok?
    requires AddsItem(AddToMyListFixed(groceries, itemName, categories, itemCategory).value.effects)
    ensures var after := AddToMyListFixed(groceries, itemName, categories, itemCategory).value.groceries;
            AddToMyListFixed(after, itemName, categories, itemCategory) == Ok(Reconciled([], after))
  {
    var cid := CategoryFor(itemCategory, categories.items).value;
    var after := AddToMyListFixed(groceries, itemName, categories, itemCategory).value.groceries;
    var k :| 0 <= k < |after.items| && Matches(itemName, after.items[k]);
    assert InCategory(after.items[k], cid);
    assert !NeedsAdd(after.items, itemName, cid);
  }

  /** add_category: creates the category, then refreshes, exactly when no heading
      resolves the name. */
  function AddCategory(name: string, categories: Snapshot<Heading>): (r: Result<seq<Effect>, Error>)
    ensures r.Err? <==>
      exists j :: 0 <= j < |categories.items| && Blank(categories.items[j]) &&
        forall i :: 0 <= i < j ==> Passes(Some(Lower(name)), categories.items[i])
    ensures r.Err? ==> r.error == BlankHeading
    ensures r.Ok? ==> r.value == [] || r.value == [CreateCategory(name), Refresh]
    ensures r.Ok? ==> (r.value != [] <==> forall i :: 0 <= i < |categories.items| ==> Passes(Some(Lower(name)), categories.items[i]))
  {
    match ResolveCategory(Some(name), categories.items)
    case Err(e) => Err(e)
    case Ok(None) => Ok([CreateCategory(name), Refresh])
    case Ok(Some(_)) => Ok([])
  }

  /** A one-word category that was just created is found the next time: asking
      to add it again, once the category list holds its heading at any position,
      creates nothing.
      Within one run the cached list is kept (see SameClockReusesFiles), so the
      heading appears there only after a restart. */
  lemma AddCategoryTwice(name: string, categories: Snapshot<Heading>, newId: string, k: int)
    requires |name| > 0 && forall i :: 0 <= i < |name| ==> !IsSpace(name[i])
    requires AddCategory(name, categories) == Ok([CreateCategory(name), Refresh])
    requires 0 <= k <= |categories.items|
    ensures AddCategory(name, categories.(items := categories.items[..k] + [Heading(newId, name)] + categories.items[k..])) == Ok([])
  {
    var hs := categories.items[..k] + [Heading(newId, name)] + categories.items[k..];
    var key := Some(Lower(name));
    forall i | 0 <= i < |name|
      ensures !IsSpace(Lower(name)[i])
    {
      LowerKeepsSpaces(name, i);
    }
    TokenOfWord(Lower(name), []);
    assert Lower(name) + [] == Lower(name);
    assert forall i :: 0 <= i < k ==> hs[i] == categories.items[i];
    assert Hits(key, hs[k]);
    EarliestHitWins(key, hs, k);
  }

  /** A category name with a separator before its last three characters never
      finds a heading, its own included: when no heading is blank, add_category
      creates it on every call (a blank heading makes it raise). */
  lemma SpacedNameIsAlwaysCreated(name: string, p: int, categories: Snapshot<Heading>)
    requires 0 <= p < |name| - 3 && IsSpace(name[p])
    requires forall i :: 0 <= i < |categories.items| ==> !Blank(categories.items[i])
    ensures AddCategory(name, categories) == Ok([CreateCategory(name), Refresh])
  {
    LowerKeepsSpaces(name, p);
    forall i | 0 <= i < |categories.items|
      ensures Passes(Some(Lower(name)), categories.items[i])
    {
      var token := HeadingToken(categories.items[i]).value;
      SpacedNameMatchesNoToken(Lower(name), p, token);
    }
  }

  /** refresh_lists. `override` says whether an override value was passed at all:
      the code tests `override is None`, so passing False also fetches. With an
      override both lists are fetched, neither is stamped nor written; otherwise
      each goes through check_file_age, groceries first. */
  function RefreshLists(override: bool, groceryFile: Option<Snapshot<Item>>, categoryFile: Option<Snapshot<Heading>>,
                        now: int, remoteItems: seq<Item>, remoteHeadings: seq<Heading>): (r: Result<Lists, Error>)
    ensures override ==> r == Ok(Lists(CacheRead(Snapshot(remoteItems, Absent), true, false),
                                       CacheRead(Snapshot(remoteHeadings, Absent), true, false)))
    ensures !override ==>
      (r.Err? <==> ((groceryFile.Some? && groceryFile.value.refreshDate.Absent?) ||
                    (categoryFile.Some? && categoryFile.value.refreshDate.Absent?)))
    ensures !override && r.Ok? ==>
      && (r.value.groceries.snapshot == Snapshot(remoteItems, Present(now)) || Some(r.value.groceries.snapshot) == groceryFile)
      && (r.value.categories.snapshot == Snapshot(remoteHeadings, Present(now)) || Some(r.value.categories.snapshot) == categoryFile)
      && r.value.groceries.snapshot.refreshDate.Present?
      && r.value.categories.snapshot.refreshDate.Present?
    ensures !override && r.Ok? ==>
      && r.value.groceries == CheckFileAge(groceryFile, now, remoteItems).value
      && r.value.categories == CheckFileAge(categoryFile, now, remoteHeadings).value
  {
    if override then
      Ok(Lists(CacheRead(Snapshot(remoteItems, Absent), true, false), CacheRead(Snapshot(remoteHeadings, Absent), true, false)))
    else
      var groceries :- CheckFileAge(groceryFile, now, remoteItems);
      var categories :- CheckFileAge(categoryFile, now, remoteHeadings);
      Ok(Lists(groceries, categories))
  }

  /** refresh_lists always passes the timestamp taken when the skill was built, so
      a second call, reading the files the first one left, fetches nothing. */
  lemma SameClockReusesFiles(groceryFile: Option<Snapshot<Item>>, categoryFile: Option<Snapshot<Heading>>, now: int,
                             remoteItems: seq<Item>, remoteHeadings: seq<Heading>,
                             laterItems: seq<Item>, laterHeadings: seq<Heading>)
    requires RefreshLists(false, groceryFile, categoryFile, now, remoteItems, remoteHeadings).Ok?
    ensures var first := RefreshLists(false, groceryFile, categoryFile, now, remoteItems, remoteHeadings).value;
            RefreshLists(false, Some(first.groceries.snapshot), Some(first.categories.snapshot), now, laterItems, laterHeadings)
            == Ok(Lists(CacheRead(first.groceries.snapshot, false, false), CacheRead(first.categories.snapshot, false, false)))
  {
    SameInstantReusesFile(groceryFile, now, remoteItems, laterItems);
    SameInstantReusesFile(categoryFile, now, remoteHeadings, laterHeadings);
  }

  /** A snapshot fetched with the override carries no stamp: written to its cache
      file, it would make the next check_file_age raise. */
  lemma OverrideSnapshotIsUnstamped(groceryFile: Option<Snapshot<Item>>, categoryFile: Option<Snapshot<Heading>>,
                                    now: int, later: int, remoteItems: seq<Item>, remoteHeadings: seq<Heading>)
    ensures var lists := RefreshLists(true, groceryFile, categoryFile, now, remoteItems, remoteHeadings).value;
            CheckFileAge(Some(lists.groceries.snapshot), later, remoteItems) == Err(MissingRefreshDate)
  {
  }
}

=== FILE: text.dfy ===
/** The handful of Python string built-ins the grocery skill relies on:
    `str.lower`, `str.split()[0]`, `needle in hay` and the negative slice `s[:-k]`. */
module Text {
  import opened Basics

  /** The characters Python's `str.isspace` accepts, which are the separators of `str.split()`. */
  predicate IsSpace(c: char) {
    || ('\t' <= c <= '\r')
    || ('\U{1C}' <= c <= ' ')
    || c == '\U{85}' || c == '\U{A0}' || c == '\U{1680}'
    || ('\U{2000}' <= c <= '\U{200A}')
    || c == '\U{2028}' || c == '\U{2029}' || c == '\U{202F}' || c == '\U{205F}' || c == '\U{3000}'
  }

  function LowerChar(c: char): char {
    if 'A' <= c <= 'Z' then (c as int - 'A' as int + 'a' as int) as char else c
  }

  /** `s.lower()` for ASCII letters; every other character is left as it is. */
  function Lower(s: string): string {
    seq(|s|, i requires 0 <= i < |s| => LowerChar(s[i]))
  }

  /** The longest prefix of `s` that holds no separator. */
  function TakeWord(s: string): (w: string)
    ensures w <= s
    ensures forall i :: 0 <= i < |w| ==> !IsSpace(w[i])
    ensures |w| == |s| || IsSpace(s[|w|])
  {
    if |s| == 0 || IsSpace(s[0]) then [] else [s[0]] + TakeWord(s[1..])
  }

  /** `s.split()[0]`; None where Python raises IndexError because `s` holds
      nothing but separators. */
  function FirstToken(s: string): (t: Option<string>)
    ensures t.None? <==> forall i :: 0 <= i < |s| ==> IsSpace(s[i])
    ensures t.Some? ==> |t.value| > 0 && forall i :: 0 <= i < |t.value| ==> !IsSpace(t.value[i])
  {
    if |s| == 0 then None
    else if IsSpace(s[0]) then FirstToken(s[1..])
    else Some(TakeWord(s))
  }

  /** `needle in hay` for two strings. */
  predicate Contains(hay: string, needle: string)
    decreases |hay|
  {
    needle <= hay || (|hay| > 0 && Contains(hay[1..], needle))
  }

  /** `s[:-k]` for k > 0: drops the last k characters, and is empty when `s` is shorter. */
  function DropLast(s: string, k: nat): (r: string)
    requires k > 0
    ensures r <= s
    ensures |r| == if k <= |s| then |s| - k else 0
  {
    if k <= |s| then s[..|s| - k] else []
  }

  lemma LowerIdempotent(s: string)
    ensures Lower(Lower(s)) == Lower(s)
  {
  }

  lemma LowerKeepsSpaces(s: string, i: int)
    requires 0 <= i < |s|
    ensures IsSpace(Lower(s)[i]) <==> IsSpace(s[i])
  {
  }

  /** Whatever leads the string, split() skips the separators and returns the
      longest run of non-separators that follows them. */
  lemma {:induction false} FirstTokenAfterSpaces(s: string, k: int)
    requires 0 <= k < |s|
    requires forall i :: 0 <= i < k ==> IsSpace(s[i])
    requires !IsSpace(s[k])
    ensures FirstToken(s) == Some(TakeWord(s[k..]))
  {
    if k == 0 {
      assert s[0..] == s;
    } else {
      assert s[1..][k - 1..] == s[k..];
      FirstTokenAfterSpaces(s[1..], k - 1);
    }
  }

  lemma {:induction false} TakeWordOf(w: string, rest: string)
    requires forall i :: 0 <= i < |w| ==> !IsSpace(w[i])
    requires rest == [] || IsSpace(rest[0])
    ensures TakeWord(w + rest) == w
  {
    if w == [] {
      assert w + rest == rest;
    } else {
      assert (w + rest)[1..] == w[1..] + rest;
      TakeWordOf(w[1..], rest);
    }
  }

  /** A word followed by nothing or by a separator is the first token: "dairy (2)" splits to "dairy". */
  lemma TokenOfWord(w: string, rest: string)
    requires |w| > 0 && forall i :: 0 <= i < |w| ==> !IsSpace(w[i])
    requires rest == [] || IsSpace(rest[0])
    ensures FirstToken(w + rest) == Some(w)
  {
    FirstTokenAfterSpaces(w + rest, 0);
    assert (w + rest)[0..] == w + rest;
    TakeWordOf(w, rest);
  }

  /** `needle` occurs in `hay` starting at offset `i`. */
  predicate OccursAt(hay: string, needle: string, i: int) {
    0 <= i && i + |needle| <= |hay| && hay[i..i + |needle|] == needle
  }

  /** The recursive `Contains` is Python's `in`: the needle occurs at some offset. */
  lemma {:induction false} ContainsAt(hay: string, needle: string)
    ensures Contains(hay, needle) <==> exists i :: OccursAt(hay, needle, i)
    decreases |hay|
  {
    if needle <= hay {
      assert OccursAt(hay, needle, 0);
    } else if |hay| == 0 {
    } else {
      ContainsAt(hay[1..], needle);
      if exists i :: OccursAt(hay, needle, i) {
        var i :| OccursAt(hay, needle, i);
        assert i != 0;
        assert OccursAt(hay[1..], needle, i - 1);
      }
      if exists i :: OccursAt(hay[1..], needle, i) {
        var i :| OccursAt(hay[1..], needle, i);
        assert OccursAt(hay, needle, i + 1);
      }
    }
  }

  lemma ContainsItself(s: string)
    ensures Contains(s, s)
  {
  }
}
